=== FILE: README.md ===
# Place: a shared pixel canvas, server and client

This project models the core of a small client/server version of Reddit's
r/place in Dafny. The server keeps a DIM x DIM board of coloured tiles.

- Clients log in under a username.
- They send CHANGE_TILE requests.
- The server stamps each request with its own clock, commits the in-range
  ones, and broadcasts TILE_CHANGED to every registered connection.
- Each client mirrors the board in a `ClientModel` and tells its views.

The model covers four pieces:

- **Admission (`PlaceServer.startListener`).** The server scans the
  registered connections in list order and refuses the newcomer at the first
  one whose username equals the newcomer's, or that was born less than 500 ms
  ago. The address test on that second branch is always true, because the
  newcomer's address is added to the address set just before the scan. So
  any recent connection blocks every newcomer, from any address. The first
  connection that matches decides whether the reason is "name taken" or
  "too frequent". A registered connection with a null username makes the scan
  throw when the scan reaches it (no earlier connection matched a test), which
  ends the server's accept loop.
- **The session (`ServerThread`).**
  - The constructor takes the birth time from the clock, then parses the
    login.
  - `run` writes LOGIN_SUCCESS, then BOARD.
  - Its request loop stamps each CHANGE_TILE and hands it to
    `PlaceServer.changeTile`. On a refusal it answers ERROR "Invalid
    Placement".
  - The loop ignores every other request kind, and every read failure other
    than a SocketException.
  - A SocketException removes the connection and ends the loop.
  - A CHANGE_TILE whose payload is not a tile throws out of `run`
    (ClassCastException or NullPointerException, which no catch clause
    handles): the session ends and the connection stays registered.
  - The loop is specified by a left fold, `Session.RequestLoop`, over the
    reads and the clock readings.
- **The client model (`ClientModel`).**
  - Observers are notified in registration order. Each notification records
    the board the observer reads back, so the model states that the board is
    updated before anyone is told.
  - `setBoard` installs a snapshot.
  - `changeTile` applies a tile in range, or halts the client.
- **The client protocol (`NetworkClient`).**
  - The login sends LOGIN and branches on the reply.
  - `connect` installs the next payload as the board.
  - The listener loop runs while `go` holds and is specified by the fold
    `Network.Receive`. It closes the connection once after `go` drops.

The module `Consistency` ties the two sides together: a client that started
from the server's board and receives a session's broadcasts ends up with the
server's board.

Modelling conventions:

- A socket is a sequence of reads (`Protocol.Incoming`: a request, or the
  exception the read threw) on the way in, and a sequence of requests on the
  way out.
- An empty inbox stands for a read that is still blocked. A method that
  returns with its loop still running models a thread waiting for input.
- The clock is a parameter: one reading per loop iteration, and one per
  admission.
- Java `null` is `Option.None`.
- `System.exit` is a `halted` flag (client model) or a `Halted`/`LoginRefused`
  state (network client).
- `PlaceBoard` and `PlaceTile` are not part of this model. The board is a
  well-formed grid value (`Place.PlaceBoard`), `isValid` is the in-range test
  0 <= row, col < DIM, and `setTile` replaces exactly the cell the tile names.

## Model

| member | source | states |
|---|---|---|
| Place.SetTile | server/PlaceServer.java:130-131 | setting a valid tile keeps the dimension, puts the tile in its own cell and leaves every other cell as it was |
| Place.NewBoard | server/PlaceServer.java:46-53 | the server's starting board has the requested dimension, and every cell holds a default tile at its own coordinates |
| Place.ApplyAllUntouched | server/PlaceServer.java:129-138 | a cell that no committed tile names keeps its original tile through any run of commits |
| Place.ApplyAllLastWriteWins | server/PlaceServer.java:129-138 | after a run of commits, a cell holds the last committed tile that names it |
| Protocol.BroadcastsConcat | server/PlaceServer.java:132-134 | the broadcasts of two runs of commits are the first run's followed by the second's |
| Protocol.BroadcastsAt | server/PlaceServer.java:132-134 | there is one TILE_CHANGED per committed tile, and the k-th one carries the k-th tile |
| Admission.Scan | server/PlaceServer.java:74-89 | every refusal names a registered connection that caused it: one with a null name, one holding the newcomer's name, or a recent one with a different name |
| Admission.ScanAcceptsIff | server/PlaceServer.java:74-93 | a newcomer joins exactly when no registered connection has a null name, the newcomer's name, or a birth time within 500 ms of now |
| Admission.ScanFirstTripDecides | server/PlaceServer.java:74-89 | the first connection in list order that matches a test decides the verdict; the name test comes before the recency test |
| Admission.ScanRefusalHasCause | server/PlaceServer.java:74-89 | a refusal comes from some connection that matches a test, with no earlier connection matching |
| Admission.DuplicateNameNeverAccepted | server/PlaceServer.java:77-79 | a newcomer whose name is held by any registered connection is never accepted |
| Admission.RecentConnectionBlocksAll | server/PlaceServer.java:82-86 | any connection born less than 500 ms ago blocks every newcomer, whatever its address, because the address test always passes |
| Admission.NameTakenOnlyIfNoEarlierRecent | server/PlaceServer.java:98-100 | "name taken" is reported only for a connection holding the name, with no earlier connection that is recent or has a null name |
| Admission.TooFrequentOnlyIfRecentFirst | server/PlaceServer.java:101-103 | "too frequent" is reported only for a recent connection, with no connection up to it holding the name |
| Admission.ReasonDependsOnOrder | server/PlaceServer.java:74-89 | the same two connections give "too frequent" in one list order and "name taken" in the other |
| Session.ParseLogin | server/ServerThread.java:43-47 | a LOGIN with text names the user; a LOGIN without payload, or another kind, leaves the name null; a LOGIN with a non-text payload fails the cast |
| Session.Stamp | server/ServerThread.java:74-75 | the stamped tile keeps its position, owner and colour; only its time changes, to the server's clock reading |
| Session.Step | server/ServerThread.java:68-95 | a stopped loop changes nothing; a running iteration consumes one read, closes the loop exactly on a SocketException, and keeps it running exactly on a read that does not end it (any other failure included); it keeps the board's dimension and either leaves board and accepted tiles alone or commits exactly one valid tile |
| Session.StepCompose | server/ServerThread.java:68-95 | an iteration depends only on the current board: its output is appended to what came before |
| Session.RequestLoop | server/ServerThread.java:68-97 | the loop consumes at most its reads; the server board is the starting board with exactly the accepted tiles set, in order, all of them in range |
| Session.LoopExtends | server/ServerThread.java:68-97 | one more read extends a running loop by a single iteration from the current board |
| Session.StopsOneMore | server/ServerThread.java:88-91 | a loop that has stopped ignores the next read |
| Session.LoopStops | server/ServerThread.java:88-91 | once the loop has stopped, later reads change nothing |
| Session.FirstEnd | server/ServerThread.java:68-95 | the position of the first read that ends the loop (a SocketException, or a CHANGE_TILE without a tile): no earlier read ends it |
| Session.LoopRunsIff | server/ServerThread.java:68-95 | the loop is still running exactly when none of its reads is a SocketException or a CHANGE_TILE without a tile; IOException, ClassNotFoundException and other request kinds keep it going |
| Session.LoopEndsAtFirst | server/ServerThread.java:68-95 | the loop stops at the first read that ends it, having consumed exactly the reads up to it: closed on a SocketException, crashed on a CHANGE_TILE without a tile |
| Session.LoopClosedIff | server/ServerThread.java:88-91 | the connection is closed and removed exactly when a SocketException arrives before any other read that ends the loop |
| Session.LoopSettled | server/ServerThread.java:68-97 | the loop's outcome is fixed once it has stopped or its reads are exhausted |
| Session.StepAnswers | server/ServerThread.java:73-79 | a CHANGE_TILE gets exactly one reply (its echo or "Invalid Placement") and is accepted exactly when its stamped tile is in range; other reads leave no trace |
| Session.LoopAnswersEachRequest | server/ServerThread.java:73-85 | while the loop runs, the replies are one per CHANGE_TILE in request order, and the accepted tiles are exactly the in-range stamped requests |
| Session.StepAccepted | server/ServerThread.java:73-84 | an iteration adds the stamped tile to the accepted tiles exactly when the loop runs, the read is a CHANGE_TILE with a tile, and the stamped tile is in range |
| Session.AcceptedWereRequested | server/ServerThread.java:73-77 | every accepted tile is one of the stamped CHANGE_TILE tiles read |
| Session.RequestedCarryServerTime | server/ServerThread.java:74-77 | every requested tile is some CHANGE_TILE's tile with its time replaced by the server's clock reading for that read |
| Server.RemoveFirst | server/PlaceServer.java:112-113 | removal leaves the list alone when the connection is absent, and otherwise shortens it by one, keeping only old members |
| Server.RemoveFirstAt | server/PlaceServer.java:113 | removing the first occurrence keeps every other element, in order |
| Server.DropDistinct | server/PlaceServer.java:113 | dropping an element of a list without repetitions keeps it without repetitions |
| Server.DropMembers | server/PlaceServer.java:113 | dropping an element of a list without repetitions removes that element and no other |
| Server.RemoveFirstDistinct | server/PlaceServer.java:112-113 | in the registry, removal takes out exactly the given connection, and removing it again changes nothing |
| Server.Registrants | server/PlaceServer.java:75-82 | the admission scan reads one (username, birth time) pair per registered connection, in list order: the i-th pair is the i-th connection's |
| Server.Admit | server/PlaceServer.java:70-104 | an unreadable login aborts the accept loop, and so does a login whose payload fails the cast; a login that is read and cast joins exactly when no registered connection trips a test |
| Server.PlaceServer.constructor | server/PlaceServer.java:46-53 | the server starts with a fresh board, no connections and no addresses |
| Server.PlaceServer.StartListener | server/PlaceServer.java:66-105 | the address set gains the new address; the outcome is the admission scan's. On joining, the newcomer is appended and nothing else changes. On refusal, the registry and the board are unchanged and only the newcomer receives a message, one ERROR. An unreadable login or a null registered name ends the accept loop |
| Server.PlaceServer.RemoveUser | server/PlaceServer.java:112-120 | the connection is removed; removing it again changes nothing; board and addresses are unchanged |
| Server.PlaceServer.ChangeTile | server/PlaceServer.java:129-138 | the result is whether the tile is in range. A valid tile updates exactly its cell and appends one TILE_CHANGED to every registered connection, in list order, the originator included. An invalid tile changes nothing and sends nothing |
| Server.ServerThread.constructor | server/ServerThread.java:37-48 | the birth time is the clock reading taken before the login read; the username is the parsed login name |
| Server.ServerThread.Run | server/ServerThread.java:58-99 | LOGIN_SUCCESS and then BOARD with the current board precede every reply. Board, own replies, broadcasts to the other connections, and removal on a SocketException are exactly those of the request-loop fold; the address set never changes |
| Server.ServerThread.Handshake | server/ServerThread.java:61-62 | writes LOGIN_SUCCESS and then BOARD carrying the server's board, before any read |
| Server.ServerThread.ServeRequests | server/ServerThread.java:68-97 | the request loop's effect on the board, this stream, the other connections' streams and the registry is the fold's |
| Server.ServerThread.Settled | server/ServerThread.java:68-97 | the state when the loop exits is the whole fold's |
| Server.ServerThread.ServeOne | server/ServerThread.java:69-95 | one iteration advances the state matching the fold by exactly one read |
| Server.ServerThread.HandleRead | server/ServerThread.java:69-95 | one read has the effect of one fold step from the current board: a stamped commit, ERROR "Invalid Placement", removal on a SocketException, or nothing |
| Model.Notices | model/ClientModel.java:37-41 | one notification per observer, in registration order, each carrying the given tile and showing the given board |
| Model.AnnouncedLength | network/NetworkClient.java:131-133 | a run of applied tiles produces one notification per tile per observer |
| Model.AnnouncedMembers | network/NetworkClient.java:131-133 | every notification of a run of applied tiles goes to a registered observer, carries one of the tiles, and shows the board with that tile and every earlier one already set |
| Model.ClientModel.constructor | model/ClientModel.java:20-23 | the model starts with no board, no observers and no notifications |
| Model.ClientModel.AddObserver | model/ClientModel.java:30-32 | the observer is appended to the list; nothing else changes |
| Model.ClientModel.NotifyObservers | model/ClientModel.java:37-41 | each registered observer is notified exactly once, in registration order, and sees the model's current board |
| Model.ClientModel.SetBoard | model/ClientModel.java:47-51 | the board becomes the one sent before anyone is told; then every observer is notified once, in order, with a null tile, and sees the new board |
| Model.ClientModel.ChangeTile | model/ClientModel.java:58-67 | a valid tile updates its cell, then notifies every observer in order with that tile, each seeing the updated board. An invalid tile leaves the board alone, notifies no one and halts. With no board the call throws |
| Network.LoginReply | network/NetworkClient.java:78-92 | an ERROR reply ends the client; a read that throws an IOException fails the constructor; a ClassNotFoundException, like any reply other than ERROR (LOGIN_SUCCESS or not), lets it proceed |
| Network.BoardPayload | network/NetworkClient.java:109-117 | a board or null payload is installed whatever the message kind; exactly the other payloads fail the cast; a failed read installs nothing; a message that arrived is never taken for a missing one |
| Network.Absorb | network/NetworkClient.java:127-154 | a stopped or exited listener ignores the message; otherwise one read is made. The listener keeps listening exactly on an in-range TILE_CHANGED tile with a board present, and exits exactly on an out-of-range tile; only a tile that is kept is added to the applied tiles |
| Network.Receive | network/NetworkClient.java:124-157 | the listener never reads past its input, a listener still running has read all of it, and the mirror keeps the installed board's presence and dimension |
| Network.ReceiveMirrors | network/NetworkClient.java:126-133 | the mirrored board is the installed board with exactly the applied tiles set, in arrival order; with no board nothing is applied |
| Network.AbsorbMirrors | network/NetworkClient.java:131-133 | one turn keeps the mirrored board equal to the installed board with the applied tiles set |
| Network.ReceiveListening | network/NetworkClient.java:126-144 | the listener keeps running exactly while every message is a TILE_CHANGED with an in-range tile |
| Network.ReceiveApplied | network/NetworkClient.java:126-133 | a listener still running has applied the tile of every message, one per message, in arrival order |
| Network.ReceiveStops | network/NetworkClient.java:134-154 | once ERROR, an unknown kind or an exception stops the listener, or it exits, no further message is processed |
| Network.AnnouncementsMirrored | network/NetworkClient.java:131-133 | a stream of TILE_CHANGED announcements of in-range tiles keeps the listener going and applies them all, in order |
| Network.NetworkClient.constructor | network/NetworkClient.java:65-95 | the first message sent is LOGIN carrying the username; the reply, when there is one, is consumed and decides the handshake |
| Network.NetworkClient.Stop | network/NetworkClient.java:54 | `go` becomes false; nothing else changes |
| Network.NetworkClient.Close | network/NetworkClient.java:178-186 | the connection is closed once more; nothing else changes |
| Network.NetworkClient.Connect | network/NetworkClient.java:109-117 | exactly one message is consumed, and its payload is installed as the board, whatever its kind, with every observer notified and seeing the new board |
| Network.NetworkClient.ChangeTile | network/NetworkClient.java:164-171 | the request is the next outgoing message, unchanged |
| Network.NetworkClient.ListenOne | network/NetworkClient.java:127-154 | one turn of the listener matches one step of the fold on the model, `go` and the exit flag |
| Network.NetworkClient.Run | network/NetworkClient.java:124-157 | while `go` holds, tiles are applied to the model in arrival order, and each tile's notifications show the board with it set; ERROR, an unknown kind or an exception drops `go`, after which `close` runs exactly once; an invalid tile halts without closing |
| Consistency.MirrorAgreesWithServer | server/PlaceServer.java:129-138 | a client that starts from a session's starting board and receives that session's broadcasts keeps listening and ends with the server's board |

## Left out

- Sockets, `ServerSocket.accept`, object streams, serialization, `flush` and `close` of the server socket are left out; reads and writes are sequences.
- Threads, `Thread.start`, `synchronized` and interleaving between sessions are left out. Each operation is one atomic step; `NetworkClient.startListener` only starts a thread running `run`, so it has no member of its own.
- The `sleep(500)` after an accepted tile and all `System.out`/`System.err` logging are left out, because they have no effect on state.
- `PlaceServer.main` is left out: its `while(true)` over `startListener` appears only as the `accepting` flag; argument parsing and the usage exit are not modelled.
- Failures of `writeUnshared` are left out; every write succeeds.
- Server.PlaceServer.StartListener: takes one clock reading for the whole admission scan, where the code reads the clock once per registered connection.
- Server.PlaceServer.StartListener: requires a first read on the new connection; a login that never arrives blocks the listener in the code, and that blocking is not modelled.
- Server.ServerThread.constructor: requires a login read that succeeded and a payload that casts; `StartListener` handles the two failures before the thread exists.
- Server.ServerThread.Run: requires the connection to be registered, as `startListener` does before starting the thread.
- `bornTime + 500` on a Java `long` is unbounded here; overflow would need clock readings near 2^63 ms.
- `PlaceBoard`, `PlaceTile` and `PlaceColor` are not part of this model. `isValid(null)` on the client is taken to throw a NullPointerException, which the listener catches.
- A read that yields an object other than a `PlaceRequest` is not modelled. In the code the `(PlaceRequest)` cast then throws a ClassCastException: in the server's request loop no catch clause takes it, so `run` ends and the connection stays registered; in the `NetworkClient` constructor and in `connect` it escapes to the caller; in the listener loop it is caught and stops the listener.
- The client GUI and console (`PlaceGUI`, `PlacePTUI`) are left out.
- Network.NetworkClient.constructor: takes the username as text, so a null username is not modelled; a failure to open the socket is not modelled either.
- `getBoard` (server and client) and `goodToGo` are plain field reads, so they carry no contract.
- Only the server records the order of writes across streams, in the ghost `writeOrder`. A session's writes to its own stream and the broadcasts to others are specified per stream.
- Server.ServerThread.Run: does not state how the session's broadcasts extend the ghost `writeOrder`; the broadcasts are stated per stream instead (the same holds for `ServeRequests`, `ServeOne` and `HandleRead`).

=== FILE: admission.dfy ===
/**
 * The admission decision of `PlaceServer.startListener`, as a function of the
 * registered connections (in list order), the newcomer's username and the clock.
 *
 * The loop looks at the registered connections one at a time and stops at the
 * first one that trips either test: the same username (the name is taken), or
 * a birth time less than `ConnectionDelay` milliseconds before now (connecting
 * too quickly). The address test that guards the second branch is always true,
 * because the newcomer's address is added to the address set just before the
 * loop, so it does not appear here. Dereferencing a registered connection whose
 * username is null throws a NullPointerException.
 */
module Admission {
  import opened Wrappers

  /** Milliseconds after a connection is born during which any new connection is refused. */
  const ConnectionDelay: int := 500

  /** What the admission loop reads of a registered connection. */
  datatype Registrant = Registrant(username: Option<string>, bornTime: int)

  datatype Reason = NameTaken | TooFrequent

  datatype Verdict = Accept | Reject(reason: Reason) | NullUsername

  predicate Recent(r: Registrant, now: int) {
    r.bornTime + ConnectionDelay > now
  }

  /** The registered connection stops the loop: its name is null, equals the newcomer's, or it is recent. */
  predicate Trips(r: Registrant, name: Option<string>, now: int) {
    r.username.None? || r.username == name || Recent(r, now)
  }

  /** The verdict a tripping connection hands down: the name test is made before the recency test. */
  function Decide(r: Registrant, name: Option<string>): Verdict {
    if r.username.None? then NullUsername
    else if r.username == name then Reject(NameTaken)
    else Reject(TooFrequent)
  }

  /**
   * The admission loop: the verdict of the first connection that trips a test,
   * or acceptance when none does. Every refusal names a connection that caused it.
   */
  function Scan(regs: seq<Registrant>, name: Option<string>, now: int): (v: Verdict)
    ensures v == NullUsername ==> exists r :: r in regs && r.username.None?
    ensures v == Reject(NameTaken) ==> name.Some? && exists r :: r in regs && r.username == name
    ensures v == Reject(TooFrequent) ==> exists r :: r in regs && Recent(r, now) && r.username != name
    decreases |regs|
  {
    if regs == [] then Accept
    else if Trips(regs[0], name, now) then Decide(regs[0], name)
    else Scan(regs[1..], name, now)
  }

  /** The newcomer is accepted exactly when no registered connection trips a test. */
  lemma {:induction false} ScanAcceptsIff(regs: seq<Registrant>, name: Option<string>, now: int)
    ensures Scan(regs, name, now) == Accept <==> forall i :: 0 <= i < |regs| ==> !Trips(regs[i], name, now)
    decreases |regs|
  {
    if regs != [] {
      ScanAcceptsIff(regs[1..], name, now);
      if !Trips(regs[0], name, now) {
        forall i | 1 <= i < |regs| ensures regs[i] == regs[1..][i - 1] { }
      }
    }
  }

  /** The first connection in list order that trips a test decides the verdict. */
  lemma {:induction false} ScanFirstTripDecides(regs: seq<Registrant>, name: Option<string>, now: int, i: nat)
    requires i < |regs| && Trips(regs[i], name, now)
    requires forall j :: 0 <= j < i ==> !Trips(regs[j], name, now)
    ensures Scan(regs, name, now) == Decide(regs[i], name)
    decreases i
  {
    if i > 0 {
      assert !Trips(regs[0], name, now);
      forall j | 0 <= j < i - 1 ensures !Trips(regs[1..][j], name, now) {
        assert regs[1..][j] == regs[j + 1];
      }
      ScanFirstTripDecides(regs[1..], name, now, i - 1);
    }
  }

  /** A refusal (or a null dereference) always comes from a first tripping connection. */
  lemma {:induction false} ScanRefusalHasCause(regs: seq<Registrant>, name: Option<string>, now: int)
    requires Scan(regs, name, now) != Accept
    ensures exists i :: 0 <= i < |regs| && Trips(regs[i], name, now)
              && (forall j :: 0 <= j < i ==> !Trips(regs[j], name, now))
              && Scan(regs, name, now) == Decide(regs[i], name)
    decreases |regs|
  {
    if Trips(regs[0], name, now) {
      assert 0 < |regs| && Trips(regs[0], name, now) && Scan(regs, name, now) == Decide(regs[0], name);
    } else {
      ScanRefusalHasCause(regs[1..], name, now);
      var i :| 0 <= i < |regs[1..]| && Trips(regs[1..][i], name, now)
                && (forall j :: 0 <= j < i ==> !Trips(regs[1..][j], name, now))
                && Scan(regs[1..], name, now) == Decide(regs[1..][i], name);
      assert regs[i + 1] == regs[1..][i];
      forall j | 0 <= j < i + 1 ensures !Trips(regs[j], name, now) {
        if j > 0 { assert regs[j] == regs[1..][j - 1]; }
      }
    }
  }

  /** A newcomer whose username is held by a registered connection is never accepted. */
  lemma DuplicateNameNeverAccepted(regs: seq<Registrant>, name: Option<string>, now: int, i: nat)
    requires i < |regs| && regs[i].username == name
    ensures Scan(regs, name, now) != Accept
  {
    ScanAcceptsIff(regs, name, now);
    assert Trips(regs[i], name, now);
  }

  /**
   * Any registered connection born less than `ConnectionDelay` ms ago blocks
   * every newcomer, whatever its address and name.
   */
  lemma RecentConnectionBlocksAll(regs: seq<Registrant>, name: Option<string>, now: int, i: nat)
    requires i < |regs| && Recent(regs[i], now)
    ensures Scan(regs, name, now) != Accept
  {
    ScanAcceptsIff(regs, name, now);
    assert Trips(regs[i], name, now);
  }

  /**
   * "Name taken" is reported only for a connection holding the name that no
   * earlier connection in the list beat with the recency test.
   */
  lemma NameTakenOnlyIfNoEarlierRecent(regs: seq<Registrant>, name: Option<string>, now: int)
    requires Scan(regs, name, now) == Reject(NameTaken)
    ensures exists i :: 0 <= i < |regs| && name.Some? && regs[i].username == name
              && forall j :: 0 <= j < i ==> !Recent(regs[j], now) && regs[j].username.Some? && regs[j].username != name
  {
    ScanRefusalHasCause(regs, name, now);
  }

  /** "Too frequent" is reported only when some connection is recent and none before it holds the name. */
  lemma TooFrequentOnlyIfRecentFirst(regs: seq<Registrant>, name: Option<string>, now: int)
    requires Scan(regs, name, now) == Reject(TooFrequent)
    ensures exists i :: 0 <= i < |regs| && Recent(regs[i], now) && regs[i].username.Some? && regs[i].username != name
              && forall j :: 0 <= j <= i ==> regs[j].username.Some? && regs[j].username != name
  {
    ScanRefusalHasCause(regs, name, now);
  }

  /**
   * The reason depends on list order: the same two connections give "too
   * frequent" in one order and "name taken" in the other.
   */
  lemma ReasonDependsOnOrder()
    ensures var recent := Registrant(Some("bob"), 1000);
            var holder := Registrant(Some("alice"), 0);
            && Scan([recent, holder], Some("alice"), 1200) == Reject(TooFrequent)
            && Scan([holder, recent], Some("alice"), 1200) == Reject(NameTaken)
  {
  }
}

=== FILE: client_model.dfy ===
/**
 * The client's mirror of the board (`ClientModel`): the board received from
 * the server, the registered views, and the notifications sent to them.
 */
module Model {
  import opened Wrappers
  import opened Place

  /** A registered view (console, window or bot), by identity. */
  type Observer = nat

  /**
   * One call `observer.update(model, tile)`, with the board that `model.getBoard()`
   * returns during the call; a `None` tile is the null tile of a whole-board change.
   */
  datatype Update = Update(observer: Observer, board: Option<PlaceBoard>, tile: Option<PlaceTile>)

  /** One notification per observer, in registration order, all seeing `board` and carrying `tile`. */
  function Notices(observers: seq<Observer>, board: Option<PlaceBoard>, tile: Option<PlaceTile>): (us: seq<Update>)
    ensures |us| == |observers|
    ensures forall k :: 0 <= k < |us| ==> us[k] == Update(observers[k], board, tile)
    decreases |observers|
  {
    if observers == [] then []
    else Notices(observers[..|observers| - 1], board, tile) + [Update(observers[|observers| - 1], board, tile)]
  }

  /**
   * The notifications of a run of tile changes applied to the board b, tile
   * after tile, each seen with the board as it is once that tile is set.
   */
  function Announced(observers: seq<Observer>, b: PlaceBoard, ts: seq<PlaceTile>): seq<Update>
    requires AllInRange(b.dim, ts)
    decreases |ts|
  {
    if ts == [] then []
    else
      var n := |ts| - 1;
      assert AllInRange(b.dim, ts[..n]) by {
        assert forall k :: 0 <= k < n ==> ts[..n][k] == ts[k];
      }
      Announced(observers, b, ts[..n]) + Notices(observers, Some(ApplyAll(b, ts)), Some(ts[n]))
  }

  /** Each applied tile is announced once to each observer. */
  lemma {:induction false} AnnouncedLength(observers: seq<Observer>, b: PlaceBoard, ts: seq<PlaceTile>)
    requires AllInRange(b.dim, ts)
    ensures |Announced(observers, b, ts)| == |ts| * |observers|
    decreases |ts|
  {
    if ts != [] {
      var n := |ts| - 1;
      assert AllInRange(b.dim, ts[..n]) by {
        assert forall k :: 0 <= k < n ==> ts[..n][k] == ts[k];
      }
      AnnouncedLength(observers, b, ts[..n]);
      var c := Notices(observers, Some(ApplyAll(b, ts)), Some(ts[n]));
      assert Announced(observers, b, ts) == Announced(observers, b, ts[..n]) + c;
      assert |c| == |observers|;
      assert |Announced(observers, b, ts)| == |Announced(observers, b, ts[..n])| + |c|;
      calc {
        |ts| * |observers|;
        (n + 1) * |observers|;
        n * |observers| + |observers|;
      }
    }
  }

  /**
   * Nothing is announced but the applied tiles, only to registered observers,
   * and each tile is seen together with the board that already holds it.
   */
  lemma {:induction false} AnnouncedMembers(observers: seq<Observer>, b: PlaceBoard, ts: seq<PlaceTile>, u: Update)
    requires AllInRange(b.dim, ts) && u in Announced(observers, b, ts)
    ensures u.observer in observers
    ensures exists k :: 0 <= k < |ts| && u.tile == Some(ts[k]) && AllInRange(b.dim, ts[..k + 1])
                        && u.board == Some(ApplyAll(b, ts[..k + 1]))
    decreases |ts|
  {
    var n := |ts| - 1;
    assert AllInRange(b.dim, ts[..n]) by {
      assert forall k :: 0 <= k < n ==> ts[..n][k] == ts[k];
    }
    var a := Announced(observers, b, ts[..n]);
    var c := Notices(observers, Some(ApplyAll(b, ts)), Some(ts[n]));
    assert Announced(observers, b, ts) == a + c;
    if u in a {
      AnnouncedMembers(observers, b, ts[..n], u);
      var k :| 0 <= k < n && u.tile == Some(ts[..n][k]) && AllInRange(b.dim, ts[..n][..k + 1])
               && u.board == Some(ApplyAll(b, ts[..n][..k + 1]));
      assert ts[..n][..k + 1] == ts[..k + 1];
    } else {
      var j :| 0 <= j < |c| && c[j] == u;
      assert u == Update(observers[j], Some(ApplyAll(b, ts)), Some(ts[n]));
      assert ts[..n + 1] == ts;
    }
  }

  /** How `changeTile` ended: the tile was applied, the call threw on a null board, or the process exited. */
  datatype TileOutcome = Applied | NullBoard | Exited

  class ClientModel {
    /** The mirrored board; `None` until a board has been installed (or after a null one). */
    var board: Option<PlaceBoard>
    var observers: seq<Observer>
    /** Every `update` call made on the observers so far, in call order. */
    var updates: seq<Update>
    /** `System.exit(1)` has been called: the client process is gone. */
    var halted: bool

    constructor ()
      ensures board == None && observers == [] && updates == [] && !halted
    {
      board := None;
      observers := [];
      updates := [];
      halted := false;
    }

    method AddObserver(observer: Observer)
      modifies this
      ensures observers == old(observers) + [observer]
      ensures board == old(board) && updates == old(updates) && halted == old(halted)
    {
      observers := observers + [observer];
    }

    /** Calls `update(this, tile)` on each observer in registration order; each sees the current board. */
    method NotifyObservers(tile: Option<PlaceTile>)
      modifies this
      ensures updates == old(updates) + Notices(observers, board, tile)
      ensures board == old(board) && observers == old(observers) && halted == old(halted)
    {
      var os := observers;
      for k := 0 to |os|
        invariant observers == os && board == old(board) && halted == old(halted)
        invariant updates == old(updates) + Notices(os[..k], board, tile)
      {
        assert os[..k + 1][..k] == os[..k];
        updates := updates + [Update(os[k], board, tile)];
      }
      assert os[..|os|] == os;
    }

    /** Installs the board (possibly null), then tells every observer, which sees it, with a null tile. */
    method SetBoard(boardSent: Option<PlaceBoard>)
      modifies this
      ensures board == boardSent
      ensures updates == old(updates) + Notices(observers, boardSent, None)
      ensures observers == old(observers) && halted == old(halted)
    {
      board := boardSent;
      NotifyObservers(None);
    }

    /**
     * Applies a tile the server announced. With no board installed the call
     * throws a NullPointerException and changes nothing; a tile in range
     * replaces its cell and is then announced to every observer, which sees
     * the updated board; a tile out of range halts the client and notifies no one.
     */
    method ChangeTile(tile: PlaceTile) returns (outcome: TileOutcome)
      modifies this
      ensures outcome == (if old(board).None? then NullBoard
                          else if IsValid(old(board).value, tile) then Applied else Exited)
      ensures observers == old(observers)
      ensures outcome == Applied ==>
                && board == Some(SetTile(old(board).value, tile))
                && updates == old(updates) + Notices(observers, board, Some(tile)) && halted == old(halted)
      ensures outcome == Exited ==> board == old(board) && updates == old(updates) && halted
      ensures outcome == NullBoard ==> board == old(board) && updates == old(updates) && halted == old(halted)
    {
      if board.None? {
        return NullBoard;
      }
      if IsValid(board.value, tile) {
        board := Some(SetTile(board.value, tile));
        NotifyObservers(Some(tile));
        outcome := Applied;
      } else {
        halted := true;
        outcome := Exited;
      }
    }

    function GetBoard(): Option<PlaceBoard>
      reads this
    {
      board
    }
  }
}

=== FILE: consistency.dfy ===
/**
 * Server and client together: a client that installed the board a session
 * started from, and then receives that session's TILE_CHANGED broadcasts,
 * ends up with the same board as the server.
 */
module Consistency {
  import opened Wrappers
  import opened Place
  import opened Protocol
  import opened Session
  import opened Network

  /**
   * The broadcasts of every tile a session accepted keep a client's listener
   * running and leave its mirror equal to the server's board after the session.
   */
  lemma MirrorAgreesWithServer(b: PlaceBoard, events: seq<Incoming>, clock: seq<int>)
    requires |clock| == |events|
    ensures var s := RequestLoop(b, events, clock);
      var m := Receive(Some(b), Deliver(Broadcasts(s.accepted)));
      m.status == Listening && m.applied == s.accepted && m.board == Some(s.board)
  {
    var s := RequestLoop(b, events, clock);
    AnnouncementsMirrored(b, s.accepted);
  }
}

=== FILE: network_client.dfy ===
/**
 * The client's side of the connection (`NetworkClient`): the login handshake,
 * the installation of the first board, and the listener loop that applies the
 * server's TILE_CHANGED announcements to the client model while `go` holds.
 * An empty inbox stands for a read that is still blocked waiting for the server.
 */
module Network {
  import opened Wrappers
  import opened Place
  import opened Protocol
  import opened Model

  /** Where the login handshake left the client. */
  datatype Handshake =
    | LoginProceeds   // LOGIN_SUCCESS, any other kind, or an unknown class: the client carries on
    | LoginRefused    // ERROR: the username is taken and the process exits
    | LoginFailed     // the read threw an IOException, rethrown as a PlaceException
    | LoginPending    // no reply has arrived yet

  /** How the client reacts to the server's reply to LOGIN. */
  function LoginReply(first: Incoming): (h: Handshake)
    ensures h == LoginRefused <==> first.Arrived? && first.request.kind == Error
    ensures h == LoginFailed <==> first.SocketFailure? || first.IoFailure?
    ensures h == LoginProceeds <==> first.UnknownClass? || (first.Arrived? && first.request.kind != Error)
  {
    match first
    case Arrived(request) => if request.kind == Error then LoginRefused else LoginProceeds
    case UnknownClass => LoginProceeds
    case _ => LoginFailed
  }

  /** The effect of `connect`'s one read. */
  datatype Install =
    | Installed(board: Option<PlaceBoard>)  // the payload, cast to a board, is handed to the model
    | ReadFailed                            // the read threw; the exception is caught and printed
    | CastFailed                            // the payload is not a board: an uncaught ClassCastException
    | NoBoardYet                            // nothing has arrived yet

  function BoardPayload(e: Incoming): (r: Install)
    ensures r.Installed? <==> e.Arrived? && (e.request.data.BoardData? || e.request.data.NoData?)
    ensures r.ReadFailed? <==> !e.Arrived?
    ensures r == Installed(None) <==> e.Arrived? && e.request.data.NoData?
    ensures r.Installed? && r.board.Some? ==> r.board.value == e.request.data.board
    ensures r.CastFailed? <==> e.Arrived? && !e.request.data.BoardData? && !e.request.data.NoData?
    ensures r != NoBoardYet
  {
    if !e.Arrived? then ReadFailed
    else match e.request.data
      case BoardData(b) => Installed(Some(b))
      case NoData => Installed(None)
      case _ => CastFailed
  }

  /** Whether the listener loop is still reading, was stopped, or the process exited. */
  datatype Listen = Listening | Stopped | Halted

  /** What the listener has done so far: the mirrored board, the tiles applied, the reads made. */
  datatype Mirror = Mirror(board: Option<PlaceBoard>, applied: seq<PlaceTile>, read: nat, status: Listen)

  /** A TILE_CHANGED message carrying a tile. */
  predicate CarriesTile(e: Incoming) {
    e.Arrived? && e.request.kind == TileChanged && e.request.data.TileData?
  }

  /** A message the listener applies and keeps listening after: a TILE_CHANGED whose tile fits the board. */
  predicate Applicable(dim: nat, e: Incoming) {
    CarriesTile(e) && InRange(dim, e.request.data.tile)
  }

  /**
   * One turn of the listener: a TILE_CHANGED tile is handed to the model. Every
   * other outcome sets `go` to false: an ERROR, another kind, a failed read, a
   * payload that is not a tile (ClassCastException), or a null tile or null
   * board (NullPointerException). A tile out of range exits the process.
   */
  function Absorb(m: Mirror, e: Incoming): (r: Mirror)
    ensures m.status != Listening ==> r == m
    ensures m.status == Listening ==> r.read == m.read + 1
    ensures r.status == Listening <==> m.status == Listening && m.board.Some? && Applicable(m.board.value.dim, e)
    ensures r.status == Halted <==>
              || m.status == Halted
              || (m.status == Listening && m.board.Some? && CarriesTile(e) && !InRange(m.board.value.dim, e.request.data.tile))
    ensures r.applied == m.applied + (if m.status == Listening && r.status == Listening then [e.request.data.tile] else [])
  {
    if m.status != Listening then m
    else if !CarriesTile(e) || m.board.None? then m.(read := m.read + 1, status := Stopped)
    else
      var t := e.request.data.tile;
      if IsValid(m.board.value, t) then
        m.(read := m.read + 1, board := Some(SetTile(m.board.value, t)), applied := m.applied + [t])
      else m.(read := m.read + 1, status := Halted)
  }

  /** The listener loop over a stream of reads, started on the model's board. */
  function Receive(board: Option<PlaceBoard>, events: seq<Incoming>): (m: Mirror)
    ensures m.read <= |events|
    ensures m.status == Listening ==> m.read == |events|
    ensures m.board.Some? <==> board.Some?
    ensures board.Some? ==> m.board.value.dim == board.value.dim
    decreases |events|
  {
    if events == [] then Mirror(board, [], 0, Listening)
    else Absorb(Receive(board, events[..|events| - 1]), events[|events| - 1])
  }

  /** The mirrored board is the installed board with exactly the applied tiles set, in order. */
  lemma {:induction false} ReceiveMirrors(board: Option<PlaceBoard>, events: seq<Incoming>)
    ensures var m := Receive(board, events);
      && (board.None? ==> m.board.None? && m.applied == [])
      && (board.Some? ==> AllInRange(board.value.dim, m.applied) && m.board == Some(ApplyAll(board.value, m.applied)))
    decreases |events|
  {
    if events != [] {
      var n := |events| - 1;
      ReceiveMirrors(board, events[..n]);
      var p := Receive(board, events[..n]);
      var m := Receive(board, events);
      assert m == Absorb(p, events[n]);
      if board.Some? {
        AbsorbMirrors(board.value, p, events[n]);
      }
    }
  }

  /** One turn keeps the mirrored board equal to the start board with the applied tiles set. */
  lemma AbsorbMirrors(b: PlaceBoard, p: Mirror, e: Incoming)
    requires AllInRange(b.dim, p.applied) && p.board == Some(ApplyAll(b, p.applied))
    ensures var m := Absorb(p, e);
      AllInRange(b.dim, m.applied) && m.board == Some(ApplyAll(b, m.applied))
  {
    var m := Absorb(p, e);
    if p.status == Listening && Applicable(b.dim, e) {
      var t := e.request.data.tile;
      assert m == p.(read := p.read + 1, board := Some(SetTile(p.board.value, t)), applied := p.applied + [t]);
      ApplyAllSnoc(b, p.applied, t);
    } else {
      assert m.applied == p.applied && m.board == p.board;
    }
  }

  /** The listener keeps listening exactly while every message read is a TILE_CHANGED that fits the board. */
  lemma {:induction false} ReceiveListening(b: PlaceBoard, events: seq<Incoming>)
    ensures Receive(Some(b), events).status == Listening <==> forall k :: 0 <= k < |events| ==> Applicable(b.dim, events[k])
    decreases |events|
  {
    if events != [] {
      var n := |events| - 1;
      var p := Receive(Some(b), events[..n]);
      ReceiveListening(b, events[..n]);
      assert Receive(Some(b), events) == Absorb(p, events[n]);
      if p.status == Listening {
        assert Absorb(p, events[n]).status == Listening <==> Applicable(b.dim, events[n]);
      }
      ApplicableSplit(b.dim, events);
    }
  }

  /** Every message fits exactly when every message but the last does and the last does. */
  lemma ApplicableSplit(dim: nat, events: seq<Incoming>)
    requires events != []
    ensures var n := |events| - 1;
      (forall k :: 0 <= k < |events| ==> Applicable(dim, events[k])) <==>
      (forall k :: 0 <= k < n ==> Applicable(dim, events[..n][k])) && Applicable(dim, events[n])
  {
    var n := |events| - 1;
    assert forall k :: 0 <= k < n ==> events[..n][k] == events[k];
  }

  /** A listener that is still listening has applied the tile of every message, in arrival order. */
  lemma {:induction false} ReceiveApplied(b: PlaceBoard, events: seq<Incoming>)
    requires Receive(Some(b), events).status == Listening
    ensures var m := Receive(Some(b), events);
      |m.applied| == |events| && forall k :: 0 <= k < |events| ==> CarriesTile(events[k]) && m.applied[k] == events[k].request.data.tile
    decreases |events|
  {
    if events != [] {
      var n := |events| - 1;
      var p := Receive(Some(b), events[..n]);
      assert Receive(Some(b), events) == Absorb(p, events[n]);
      assert p.status == Listening;
      ReceiveApplied(b, events[..n]);
      assert Receive(Some(b), events).applied == p.applied + [events[n].request.data.tile];
      assert forall k :: 0 <= k < n ==> events[..n][k] == events[k];
    }
  }

  /** Once the listener has stopped or exited, later messages are not processed. */
  lemma {:induction false} ReceiveStops(board: Option<PlaceBoard>, events: seq<Incoming>, more: seq<Incoming>)
    requires Receive(board, events).status != Listening
    ensures Receive(board, events + more) == Receive(board, events)
    decreases |more|
  {
    if more == [] {
      assert events + more == events;
    } else {
      var n := |more| - 1;
      ReceiveStops(board, events, more[..n]);
      assert (events + more)[..|events + more| - 1] == events + more[..n];
    }
  }

  /** A listener that read the whole prefix and then stopped, or read everything, is done with the stream. */
  lemma ReceivePrefix(board: Option<PlaceBoard>, events: seq<Incoming>, i: nat)
    requires i <= |events| && (i == |events| || Receive(board, events[..i]).status != Listening)
    ensures Receive(board, events) == Receive(board, events[..i])
  {
    if i == |events| {
      assert events[..i] == events;
    } else {
      ReceiveStops(board, events[..i], events[i..]);
      assert events[..i] + events[i..] == events;
    }
  }

  /** Reading one more message is one `Absorb` step on the listener state so far. */
  lemma ReceiveExtends(board: Option<PlaceBoard>, events: seq<Incoming>, i: nat)
    requires i < |events|
    ensures Receive(board, events[..i + 1]) == Absorb(Receive(board, events[..i]), events[i])
  {
    assert events[..i + 1][..i] == events[..i];
  }

  /** A stream of announcements of in-range tiles keeps the listener going and mirrors them all. */
  lemma AnnouncementsMirrored(b: PlaceBoard, ts: seq<PlaceTile>)
    requires AllInRange(b.dim, ts)
    ensures Receive(Some(b), Deliver(Broadcasts(ts))) == Mirror(Some(ApplyAll(b, ts)), ts, |ts|, Listening)
  {
    var events := Deliver(Broadcasts(ts));
    DeliveredApplicable(b, ts);
    ReceiveListening(b, events);
    ReceiveMirrors(Some(b), events);
    ReceiveApplied(b, events);
    assert Receive(Some(b), events).applied == ts;
  }

  /** The delivered announcements of in-range tiles are applicable TILE_CHANGED messages carrying those tiles. */
  lemma DeliveredApplicable(b: PlaceBoard, ts: seq<PlaceTile>)
    requires AllInRange(b.dim, ts)
    ensures var events := Deliver(Broadcasts(ts));
      && |events| == |ts|
      && (forall k :: 0 <= k < |events| ==> Applicable(b.dim, events[k]))
      && (forall k :: 0 <= k < |events| ==> events[k].request.data.tile == ts[k])
  {
    BroadcastsAt(ts);
  }

  class NetworkClient {
    const model: ClientModel
    /** What the server has sent and the client has not read yet. */
    var networkIn: seq<Incoming>
    /** What the client has sent, oldest first. */
    var networkOut: seq<PlaceRequest>
    /** The listener keeps reading while this is true. */
    var go: bool
    var handshake: Handshake
    /** How many times `close` has run. */
    var closes: nat

    /**
     * Connects with the stream `input` of what the server sends: sends LOGIN
     * with the username, then reads the reply.
     */
    constructor (model: ClientModel, userName: string, input: seq<Incoming>)
      ensures this.model == model && go && closes == 0
      ensures networkOut == [PlaceRequest(Login, Text(userName))]
      ensures input == [] ==> handshake == LoginPending && networkIn == []
      ensures input != [] ==> handshake == LoginReply(input[0]) && networkIn == input[1..]
    {
      this.model := model;
      go := true;
      closes := 0;
      networkOut := [PlaceRequest(Login, Text(userName))];
      if input == [] {
        networkIn := [];
        handshake := LoginPending;
      } else {
        networkIn := input[1..];
        handshake := LoginReply(input[0]);
      }
    }

    function GoodToGo(): bool
      reads this
    {
      go
    }

    method Stop()
      modifies this
      ensures !go
      ensures networkIn == old(networkIn) && networkOut == old(networkOut)
      ensures handshake == old(handshake) && closes == old(closes)
    {
      go := false;
    }

    method Close()
      modifies this
      ensures closes == old(closes) + 1
      ensures go == old(go) && networkIn == old(networkIn) && networkOut == old(networkOut) && handshake == old(handshake)
    {
      closes := closes + 1;
    }

    /** Reads the next message and installs its payload as the model's board, whatever its kind. */
    method Connect() returns (r: Install)
      modifies this, model
      ensures r == (if old(networkIn) == [] then NoBoardYet else BoardPayload(old(networkIn)[0]))
      ensures networkIn == (if old(networkIn) == [] then [] else old(networkIn)[1..])
      ensures r.Installed? ==> model.board == r.board && model.updates == old(model.updates) + Notices(model.observers, r.board, None)
      ensures !r.Installed? ==> model.board == old(model.board) && model.updates == old(model.updates)
      ensures model.observers == old(model.observers) && model.halted == old(model.halted)
      ensures go == old(go) && networkOut == old(networkOut) && handshake == old(handshake) && closes == old(closes)
    {
      if networkIn == [] {
        return NoBoardYet;
      }
      var e := networkIn[0];
      networkIn := networkIn[1..];
      r := BoardPayload(e);
      if r.Installed? {
        model.SetBoard(r.board);
      }
    }

    /** Sends the request as the next outgoing message. */
    method ChangeTile(request: PlaceRequest)
      modifies this
      ensures networkOut == old(networkOut) + [request]
      ensures go == old(go) && networkIn == old(networkIn) && handshake == old(handshake) && closes == old(closes)
    {
      networkOut := networkOut + [request];
    }

    /**
     * The model and `go` agree with the listener state `m` of a listener that
     * started on `board0`: the board holds the applied tiles, and each was
     * announced with the board that holds it.
     */
    ghost predicate Tracks(m: Mirror, board0: Option<PlaceBoard>, updates0: seq<Update>, observers0: seq<Observer>, halted0: bool)
      reads this, model
    {
      && model.board == m.board
      && model.observers == observers0
      && (board0.None? ==> m.board.None? && m.applied == [] && model.updates == updates0)
      && (board0.Some? ==> && AllInRange(board0.value.dim, m.applied)
                           && m.board == Some(ApplyAll(board0.value, m.applied))
                           && model.updates == updates0 + Announced(observers0, board0.value, m.applied))
      && model.halted == (halted0 || m.status == Halted)
      && go == (m.status != Stopped)
    }

    /** One turn of the loop body on the message `e` just read. */
    method ListenOne(e: Incoming, ghost m: Mirror, ghost board0: Option<PlaceBoard>, ghost updates0: seq<Update>,
                     ghost observers0: seq<Observer>, ghost halted0: bool)
      returns (exited: bool)
      requires m.status == Listening && Tracks(m, board0, updates0, observers0, halted0)
      modifies this, model
      ensures Tracks(Absorb(m, e), board0, updates0, observers0, halted0)
      ensures exited <==> Absorb(m, e).status == Halted
      ensures networkIn == old(networkIn) && networkOut == old(networkOut)
      ensures handshake == old(handshake) && closes == old(closes)
    {
      exited := false;
      if CarriesTile(e) {
        var t := e.request.data.tile;
        var outcome := model.ChangeTile(t);
        if outcome == NullBoard {
          assert Absorb(m, e) == m.(read := m.read + 1, status := Stopped);
          Stop();
        } else if outcome == Applied {
          var a := Absorb(m, e);
          var b := board0.value;
          assert a.applied == m.applied + [t] && a.status == Listening;
          ApplyAllSnoc(b, m.applied, t);
          assert a.applied[..|a.applied| - 1] == m.applied;
          var c := Notices(observers0, Some(ApplyAll(b, a.applied)), Some(t));
          assert Announced(observers0, b, a.applied) == Announced(observers0, b, m.applied) + c;
          AppendAssoc(updates0, Announced(observers0, b, m.applied), c);
        } else {
          assert Absorb(m, e) == m.(read := m.read + 1, status := Halted);
          exited := true;
        }
      } else {
        assert Absorb(m, e) == m.(read := m.read + 1, status := Stopped);
        Stop();
      }
    }

    /**
     * The listener thread's loop: reads and handles messages while `go` holds,
     * then closes the connection. A tile out of range ends the process inside
     * the loop, so `close` is not reached; an exhausted inbox leaves the
     * thread waiting for the next message.
     */
    method Run()
      modifies this, model
      ensures !old(go) ==> && closes == old(closes) + 1 && networkIn == old(networkIn) && !go
                           && model.board == old(model.board) && model.updates == old(model.updates)
                           && model.halted == old(model.halted)
      ensures old(go) ==> var m := Receive(old(model.board), old(networkIn));
                && model.board == m.board
                && (old(model.board).None? ==> model.updates == old(model.updates))
                && (old(model.board).Some? ==>
                      && AllInRange(old(model.board).value.dim, m.applied)
                      && model.updates == old(model.updates) + Announced(old(model.observers), old(model.board).value, m.applied))
                && model.halted == (old(model.halted) || m.status == Halted)
                && networkIn == old(networkIn)[m.read..]
                && go == (m.status != Stopped)
                && closes == old(closes) + (if m.status == Stopped then 1 else 0)
      ensures model.observers == old(model.observers)
      ensures networkOut == old(networkOut) && handshake == old(handshake)
    {
      if !go {
        Close();
        return;
      }
      ghost var events, board0, updates0, observers0, halted0 := networkIn, model.board, model.updates, model.observers, model.halted;
      var exited := false;
      var i := 0;
      assert events[..0] == [];
      assert updates0 + [] == updates0;
      while go && !exited && networkIn != []
        invariant 0 <= i <= |events| && networkIn == events[i..]
        invariant Tracks(Receive(board0, events[..i]), board0, updates0, observers0, halted0)
        invariant exited <==> Receive(board0, events[..i]).status == Halted
        invariant Receive(board0, events[..i]).read == i
        invariant networkOut == old(networkOut) && handshake == old(handshake) && closes == old(closes)
        decreases |networkIn|
      {
        var e := networkIn[0];
        networkIn := networkIn[1..];
        ReceiveExtends(board0, events, i);
        exited := ListenOne(e, Receive(board0, events[..i]), board0, updates0, observers0, halted0);
        i := i + 1;
      }
      ReceivePrefix(board0, events, i);
      if !go {
        Close();
      }
    }
  }
}

=== FILE: place.dfy ===
/**
 * The board and its tiles (the `place` package). The board is a DIM x DIM grid
 * of tiles; a tile is valid for a board when its coordinates lie in the grid,
 * and setting a tile replaces exactly the cell it names.
 */
module Place {

  /** Index of a colour in the palette; the palette itself is not modelled. */
  type Color = nat

  /** The colour every cell of a fresh board starts with. */
  const DefaultColor: Color := 0

  /** One cell: where it is, who painted it, with which colour and when (in milliseconds). */
  datatype PlaceTile = PlaceTile(row: int, col: int, owner: string, color: Color, time: int)

  datatype Grid = Grid(dim: nat, cells: seq<seq<PlaceTile>>)

  /** A dim x dim grid in which the tile held at (r, c) says it is at (r, c). */
  predicate WellFormed(g: Grid) {
    && |g.cells| == g.dim
    && (forall r :: 0 <= r < g.dim ==> |g.cells[r]| == g.dim)
    && (forall r, c :: 0 <= r < g.dim && 0 <= c < g.dim ==> g.cells[r][c].row == r && g.cells[r][c].col == c)
  }

  /** A board: exactly one tile occupies each cell, at every moment. */
  type PlaceBoard = g: Grid | WellFormed(g) witness Grid(0, [])

  /** The only mutation guard: the tile's coordinates lie in [0, dim). */
  predicate InRange(dim: nat, t: PlaceTile) {
    0 <= t.row < dim && 0 <= t.col < dim
  }

  predicate IsValid(b: PlaceBoard, t: PlaceTile) {
    InRange(b.dim, t)
  }

  function GetTile(b: PlaceBoard, r: nat, c: nat): PlaceTile
    requires r < b.dim && c < b.dim
  {
    b.cells[r][c]
  }

  /** The board with the cell the tile names replaced by the tile, and every other cell as it was. */
  function SetTile(b: PlaceBoard, t: PlaceTile): (r: PlaceBoard)
    requires IsValid(b, t)
    ensures r.dim == b.dim
    ensures GetTile(r, t.row, t.col) == t
    ensures forall i, j :: 0 <= i < b.dim && 0 <= j < b.dim && (i != t.row || j != t.col) ==>
              GetTile(r, i, j) == GetTile(b, i, j)
  {
    Grid(b.dim, b.cells[t.row := b.cells[t.row][t.col := t]])
  }

  /** A fresh board: every cell has the default colour, no owner and the creation time. */
  function NewBoard(dim: nat, now: int): (b: PlaceBoard)
    ensures b.dim == dim
    ensures forall r, c :: 0 <= r < dim && 0 <= c < dim ==> GetTile(b, r, c) == PlaceTile(r, c, "", DefaultColor, now)
  {
    Grid(dim, seq(dim, r requires 0 <= r < dim => seq(dim, c requires 0 <= c < dim => PlaceTile(r, c, "", DefaultColor, now))))
  }

  predicate AllInRange(dim: nat, ts: seq<PlaceTile>) {
    forall k :: 0 <= k < |ts| ==> InRange(dim, ts[k])
  }

  /** The board after setting the tiles one after the other, in order. */
  function ApplyAll(b: PlaceBoard, ts: seq<PlaceTile>): (r: PlaceBoard)
    requires AllInRange(b.dim, ts)
    ensures r.dim == b.dim
    decreases |ts|
  {
    if ts == [] then b else SetTile(ApplyAll(b, ts[..|ts| - 1]), ts[|ts| - 1])
  }

  predicate At(t: PlaceTile, i: int, j: int) {
    t.row == i && t.col == j
  }

  /** A cell that no tile of the sequence names keeps its tile. */
  lemma {:induction false} ApplyAllUntouched(b: PlaceBoard, ts: seq<PlaceTile>, i: nat, j: nat)
    requires AllInRange(b.dim, ts) && i < b.dim && j < b.dim
    requires forall k :: 0 <= k < |ts| ==> !At(ts[k], i, j)
    ensures GetTile(ApplyAll(b, ts), i, j) == GetTile(b, i, j)
    decreases |ts|
  {
    if ts != [] {
      ApplyAllUntouched(b, ts[..|ts| - 1], i, j);
    }
  }

  /** Last write wins: a cell holds the last tile of the sequence that names it. */
  lemma {:induction false} ApplyAllLastWriteWins(b: PlaceBoard, ts: seq<PlaceTile>, k: nat)
    requires AllInRange(b.dim, ts) && k < |ts|
    requires forall m :: k < m < |ts| ==> !At(ts[m], ts[k].row, ts[k].col)
    ensures GetTile(ApplyAll(b, ts), ts[k].row, ts[k].col) == ts[k]
    decreases |ts|
  {
    if k < |ts| - 1 {
      ApplyAllLastWriteWins(b, ts[..|ts| - 1], k);
    }
  }

  /** Setting one more tile in range extends the board of the earlier tiles. */
  lemma ApplyAllSnoc(b: PlaceBoard, ts: seq<PlaceTile>, t: PlaceTile)
    requires AllInRange(b.dim, ts) && InRange(b.dim, t)
    ensures AllInRange(b.dim, ts + [t])
    ensures ApplyAll(b, ts + [t]) == SetTile(ApplyAll(b, ts), t)
  {
    assert (ts + [t])[..|ts|] == ts;
  }
}

=== FILE: protocol.dfy ===
/**
 * The wire protocol (`PlaceRequest`): a kind tag with an untyped payload, and
 * what one read from an object stream can yield.
 */
module Protocol {
  import opened Place

  datatype RequestType = Login | LoginSuccess | Error | Board | ChangeTile | TileChanged

  /** The request's data; `NoData` is a null payload. */
  datatype Payload = NoData | Text(text: string) | TileData(tile: PlaceTile) | BoardData(board: PlaceBoard)

  datatype PlaceRequest = PlaceRequest(kind: RequestType, data: Payload)

  /**
   * The result of one blocking read: a request, or the exception the read threw
   * (a `SocketException`, another `IOException` such as end of stream, or a
   * `ClassNotFoundException`).
   */
  datatype Incoming = Arrived(request: PlaceRequest) | SocketFailure | IoFailure | UnknownClass

  function TileChangedMsg(t: PlaceTile): PlaceRequest {
    PlaceRequest(TileChanged, TileData(t))
  }

  /** One TILE_CHANGED message per tile, in the tiles' order. */
  function Broadcasts(ts: seq<PlaceTile>): seq<PlaceRequest>
    decreases |ts|
  {
    if ts == [] then [] else Broadcasts(ts[..|ts| - 1]) + [TileChangedMsg(ts[|ts| - 1])]
  }

  lemma {:induction false} BroadcastsConcat(a: seq<PlaceTile>, b: seq<PlaceTile>)
    ensures Broadcasts(a + b) == Broadcasts(a) + Broadcasts(b)
    decreases |b|
  {
    if b != [] {
      var n := |b| - 1;
      assert (a + b)[..|a + b| - 1] == a + b[..n];
      BroadcastsConcat(a, b[..n]);
    } else {
      assert a + b == a;
    }
  }

  /** The k-th broadcast announces the k-th tile. */
  lemma {:induction false} BroadcastsAt(ts: seq<PlaceTile>)
    ensures |Broadcasts(ts)| == |ts|
    ensures forall k :: 0 <= k < |ts| ==> Broadcasts(ts)[k] == TileChangedMsg(ts[k])
    decreases |ts|
  {
    if ts != [] {
      var n := |ts| - 1;
      BroadcastsAt(ts[..n]);
      assert forall k :: 0 <= k < n ==> ts[..n][k] == ts[k];
    }
  }

  /** The messages as they arrive on a stream, one read each. */
  function Deliver(ms: seq<PlaceRequest>): seq<Incoming>
  {
    seq(|ms|, k requires 0 <= k < |ms| => Arrived(ms[k]))
  }
}

=== FILE: server.dfy ===
/**
 * The server (`place.server`): `PlaceServer` owns the board, the registry of
 * connections and the set of addresses seen; `ServerThread` is one connection,
 * with its login name, its birth time and its two streams.
 */
module Server {
  import opened Wrappers
  import opened Place
  import opened Protocol
  import opened Admission
  import opened Session

  /** A client's network address, as text. */
  type Address = string

  predicate Distinct<T(==)>(s: seq<T>) {
    forall i, j :: 0 <= i < j < |s| ==> s[i] != s[j]
  }

  /** `List.remove(Object)`: drops the first element equal to x, if there is one. */
  function RemoveFirst<T(==)>(s: seq<T>, x: T): (r: seq<T>)
    ensures x !in s ==> r == s
    ensures x in s ==> |r| == |s| - 1
    ensures forall y :: y in r ==> y in s
    decreases |s|
  {
    if s == [] then [] else if s[0] == x then s[1..] else [s[0]] + RemoveFirst(s[1..], x)
  }

  /** Removing the first occurrence at index i keeps every other element, in order. */
  lemma {:induction false} RemoveFirstAt<T>(s: seq<T>, x: T, i: nat)
    requires i < |s| && s[i] == x && x !in s[..i]
    ensures RemoveFirst(s, x) == s[..i] + s[i + 1..]
    decreases i
  {
    if i > 0 {
      assert s[0] != x by { assert s[0] == s[..i][0]; }
      assert x !in s[1..][..i - 1] by { assert s[1..][..i - 1] == s[1..i]; }
      RemoveFirstAt(s[1..], x, i - 1);
      assert s[..i] == [s[0]] + s[1..][..i - 1];
      assert s[i + 1..] == s[1..][i..];
    }
  }

  /** Dropping index i of a list without repetitions keeps it without repetitions. */
  lemma DropDistinct<T>(s: seq<T>, i: nat)
    requires Distinct(s) && i < |s|
    ensures Distinct(s[..i] + s[i + 1..])
  {
    var r := s[..i] + s[i + 1..];
    forall a, b | 0 <= a < b < |r| ensures r[a] != r[b] {
      var a', b' := if a < i then a else a + 1, if b < i then b else b + 1;
      assert r[a] == s[a'] && r[b] == s[b'];
    }
  }

  /** Dropping index i of a list without repetitions takes out s[i] and only s[i]. */
  lemma DropMembers<T>(s: seq<T>, i: nat)
    requires Distinct(s) && i < |s|
    ensures forall y :: y in s[..i] + s[i + 1..] <==> y in s && y != s[i]
  {
    var r := s[..i] + s[i + 1..];
    forall y | y in s && y != s[i] ensures y in r {
      var k :| 0 <= k < |s| && s[k] == y;
      if k < i { assert r[k] == y; } else { assert r[k - 1] == y; }
    }
    forall k | 0 <= k < |r| ensures r[k] != s[i] {
      if k < i { assert r[k] == s[k]; } else { assert r[k] == s[k + 1]; }
    }
  }

  /** In a list without repetitions removal takes out x and only x, and removing again changes nothing. */
  lemma RemoveFirstDistinct<T>(s: seq<T>, x: T)
    requires Distinct(s)
    ensures var r := RemoveFirst(s, x);
            && Distinct(r) && x !in r
            && (forall y :: y != x ==> (y in r <==> y in s))
            && RemoveFirst(r, x) == r
  {
    if x in s {
      var i :| 0 <= i < |s| && s[i] == x;
      assert x !in s[..i];
      RemoveFirstAt(s, x, i);
      DropDistinct(s, i);
      DropMembers(s, i);
    }
  }

  /** What the admission loop reads of the registered connections, in list order. */
  function Registrants(cs: seq<ServerThread>): (regs: seq<Registrant>)
    ensures |regs| == |cs|
    ensures forall i :: 0 <= i < |cs| ==> regs[i].username == cs[i].username && regs[i].bornTime == cs[i].bornTime
  {
    seq(|cs|, i requires 0 <= i < |cs| => Registrant(cs[i].username, cs[i].bornTime))
  }

  /**
   * Why `startListener` threw, which ends the server's accept loop: the login
   * read failed, the login payload was not a String, or a registered
   * connection's username was null.
   */
  datatype Fault = LoginUnreadable | LoginCastFailed | NullPointer

  datatype ListenOutcome = Joined | Refused(reason: Reason) | Aborted(fault: Fault)

  /** The outcome of one `startListener` call, from the registry, the first read of the newcomer and the clock. */
  function Admit(regs: seq<Registrant>, first: Incoming, now: int): (r: ListenOutcome)
    ensures r == Aborted(LoginUnreadable) <==> !first.Arrived?
    ensures r == Aborted(LoginCastFailed) <==> first.Arrived? && ParseLogin(first.request).CastFailure?
    ensures r.Joined? <==> && first.Arrived? && ParseLogin(first.request).Named?
                           && forall i :: 0 <= i < |regs| ==> !Trips(regs[i], ParseLogin(first.request).username, now)
  {
    if !first.Arrived? then Aborted(LoginUnreadable)
    else match ParseLogin(first.request)
      case CastFailure => Aborted(LoginCastFailed)
      case Named(name) =>
        ScanAcceptsIff(regs, name, now);
        match Scan(regs, name, now)
        case Accept => Joined
        case Reject(reason) => Refused(reason)
        case NullUsername => Aborted(NullPointer)
  }

  /** The message a refused connection receives: ERROR without payload. */
  const Refusal: PlaceRequest := PlaceRequest(Error, NoData)

  class PlaceServer {
    var connections: seq<ServerThread>
    var board: PlaceBoard
    var ips: set<Address>
    /** False once `startListener` has thrown: the accept loop of `main` is over. */
    var accepting: bool
    /** The connections the server wrote to, in the order of the writes. */
    ghost var writeOrder: seq<ServerThread>

    ghost predicate Valid()
      reads this
    {
      Distinct(connections) && forall t :: t in connections ==> t.server == this
    }

    constructor (dim: nat, now: int)
      ensures Valid() && accepting
      ensures connections == [] && board == NewBoard(dim, now) && ips == {} && writeOrder == []
    {
      connections := [];
      board := NewBoard(dim, now);
      ips := {};
      accepting := true;
      writeOrder := [];
    }

    function GetBoard(): PlaceBoard
      reads this
    {
      board
    }

    /**
     * One accepted connection: `addr` is its address, `input` what reads on it
     * yield, `bornAt` the clock when its thread is built and `now` the clock
     * the admission loop compares birth times with.
     */
    method StartListener(addr: Address, input: seq<Incoming>, bornAt: int, now: int) returns (outcome: ListenOutcome, thread: ServerThread?)
      requires Valid() && accepting && |input| > 0
      modifies this
      ensures Valid() && board == old(board)
      ensures ips == old(ips) + {addr}
      ensures outcome == Admit(Registrants(old(connections)), input[0], now)
      ensures accepting == !outcome.Aborted?
      ensures forall t :: t in old(connections) ==> t.networkOut == old(t.networkOut) && t.networkIn == old(t.networkIn)
      ensures outcome.Joined? ==> thread != null && fresh(thread) && connections == old(connections) + [thread]
                                  && thread.networkOut == [] && writeOrder == old(writeOrder)
      ensures outcome.Refused? ==> thread != null && fresh(thread) && connections == old(connections)
                                   && thread.networkOut == [Refusal] && writeOrder == old(writeOrder) + [thread]
      ensures outcome.Aborted? ==> thread == null && connections == old(connections) && writeOrder == old(writeOrder)
      ensures thread != null ==> && thread.server == this && thread.bornTime == bornAt && thread.networkIn == input[1..]
                                 && thread.username == ParseLogin(input[0].request).username
    {
      ips := ips + {addr};
      if !input[0].Arrived? {
        accepting := false;
        return Aborted(LoginUnreadable), null;
      }
      if ParseLogin(input[0].request).CastFailure? {
        accepting := false;
        return Aborted(LoginCastFailed), null;
      }
      var netThread := new ServerThread(input, this, bornAt);
      ghost var regs := Registrants(connections);
      ghost var name := netThread.username;
      var flag, flag2 := false, false;
      var i := 0;
      while i < |connections|
        invariant 0 <= i <= |connections| && !flag && !flag2
        invariant forall j :: 0 <= j < i ==> !Trips(regs[j], name, now)
      {
        var current := connections[i];
        assert regs[i] == Registrant(current.username, current.bornTime);
        if current.username.None? {
          ScanFirstTripDecides(regs, name, now, i);
          accepting := false;
          return Aborted(NullPointer), null;
        }
        if current.username == netThread.username {
          flag := true;
          break;
        } else if current.bornTime + ConnectionDelay > now {
          if addr in ips {
            flag := true;
            flag2 := true;
            break;
          }
        }
        i := i + 1;
      }
      if !flag {
        ScanAcceptsIff(regs, name, now);
        connections := connections + [netThread];
        outcome := Joined;
      } else {
        ScanFirstTripDecides(regs, name, now, i);
        netThread.networkOut := netThread.networkOut + [Refusal];
        writeOrder := writeOrder + [netThread];
        outcome := Refused(if flag2 then TooFrequent else NameTaken);
      }
      thread := netThread;
    }

    /** Takes a connection out of the registry. */
    method RemoveUser(userThread: ServerThread)
      requires Valid()
      modifies this
      ensures Valid() && connections == RemoveFirst(old(connections), userThread)
      ensures userThread !in connections && RemoveFirst(connections, userThread) == connections
      ensures board == old(board) && ips == old(ips) && accepting == old(accepting) && writeOrder == old(writeOrder)
    {
      RemoveFirstDistinct(connections, userThread);
      connections := RemoveFirst(connections, userThread);
    }

    /**
     * Commits a tile in range and writes TILE_CHANGED to every registered
     * connection in list order; a tile out of range changes nothing.
     */
    method ChangeTile(tile: PlaceTile) returns (ok: bool)
      requires Valid()
      modifies this, connections
      ensures Valid()
      ensures ok == IsValid(old(board), tile)
      ensures board == (if ok then SetTile(old(board), tile) else old(board))
      ensures connections == old(connections) && ips == old(ips) && accepting == old(accepting)
      ensures writeOrder == old(writeOrder) + (if ok then connections else [])
      ensures forall t :: t in connections ==>
                && t.networkIn == old(t.networkIn)
                && t.networkOut == old(t.networkOut) + (if ok then [TileChangedMsg(tile)] else [])
    {
      if !IsValid(board, tile) {
        return false;
      }
      board := SetTile(board, tile);
      var message := TileChangedMsg(tile);
      for i := 0 to |connections|
        invariant connections == old(connections) && board == SetTile(old(board), tile)
        invariant ips == old(ips) && accepting == old(accepting)
        invariant writeOrder == old(writeOrder) + connections[..i]
        invariant forall j :: 0 <= j < i ==> connections[j].networkOut == old(connections[j].networkOut) + [message]
        invariant forall j :: i <= j < |connections| ==> connections[j].networkOut == old(connections[j].networkOut)
        invariant forall t :: t in connections ==> t.networkIn == old(t.networkIn)
      {
        var current := connections[i];
        current.networkOut := current.networkOut + [message];
        writeOrder := writeOrder + [current];
        assert connections[..i + 1] == connections[..i] + [current];
      }
      assert connections[..|connections|] == connections;
      return true;
    }
  }

  class ServerThread {
    const server: PlaceServer
    const username: Option<string>
    const bornTime: int
    /** The reads still to come on this connection's input stream. */
    var networkIn: seq<Incoming>
    /** Everything written to this connection's output stream so far. */
    var networkOut: seq<PlaceRequest>

    /**
     * Takes the birth time from the clock, then reads the login request.
     * `startListener` has already dealt with a first read that throws.
     */
    constructor (input: seq<Incoming>, s: PlaceServer, now: int)
      requires |input| > 0 && input[0].Arrived? && ParseLogin(input[0].request).Named?
      ensures server == s && bornTime == now && username == ParseLogin(input[0].request).username
      ensures networkIn == input[1..] && networkOut == []
    {
      server := s;
      bornTime := now;
      var request := input[0].request;
      username := ParseLogin(request).username;
      networkIn := input[1..];
      networkOut := [];
    }

    /**
     * The session of a registered connection: LOGIN_SUCCESS, then BOARD, then
     * the request loop, `clock[k]` being the clock reading of the k-th read.
     */
    method Run(clock: seq<int>)
      requires server.Valid() && this in server.connections && |clock| == |networkIn|
      modifies this, server, server.connections
      ensures server.Valid()
      ensures server.ips == old(server.ips) && server.accepting == old(server.accepting)
      ensures var s := RequestLoop(old(server.board), old(networkIn), clock);
              && server.board == s.board
              && networkIn == old(networkIn)[s.read..]
              && networkOut == old(networkOut) + [PlaceRequest(LoginSuccess, NoData), PlaceRequest(Board, BoardData(old(server.board)))] + s.replies
              && (forall t :: t in old(server.connections) && t != this ==>
                    t.networkIn == old(t.networkIn) && t.networkOut == old(t.networkOut) + Broadcasts(s.accepted))
              && server.connections == (if s.status == Closed then RemoveFirst(old(server.connections), this) else old(server.connections))
    {
      Handshake();
      ServeRequests(clock);
    }

    /** Writes LOGIN_SUCCESS and then the current board, before any request is read. */
    method Handshake()
      modifies this
      ensures networkOut == old(networkOut) + [PlaceRequest(LoginSuccess, NoData), PlaceRequest(Board, BoardData(server.board))]
      ensures networkIn == old(networkIn)
    {
      networkOut := networkOut + [PlaceRequest(LoginSuccess, NoData)];
      networkOut := networkOut + [PlaceRequest(Board, BoardData(server.GetBoard()))];
    }

    /**
     * The request loop, `clock[k]` being the clock reading of the k-th read.
     * Returning with the loop still running stands for a thread blocked in a
     * read that no input answers.
     */
    method ServeRequests(clock: seq<int>)
      requires server.Valid() && this in server.connections && |clock| == |networkIn|
      modifies this, server, server.connections
      ensures server.Valid()
      ensures server.ips == old(server.ips) && server.accepting == old(server.accepting)
      ensures var s := RequestLoop(old(server.board), old(networkIn), clock);
              && server.board == s.board
              && networkIn == old(networkIn)[s.read..]
              && networkOut == old(networkOut) + s.replies
              && (forall t :: t in old(server.connections) && t != this ==>
                    t.networkIn == old(t.networkIn) && t.networkOut == old(t.networkOut) + Broadcasts(s.accepted))
              && server.connections == (if s.status == Closed then RemoveFirst(old(server.connections), this) else old(server.connections))
    {
      ghost var events, board0, conns0 := networkIn, server.board, server.connections;
      ghost var base: map<ServerThread, seq<PlaceRequest>> := map t: ServerThread | t in conns0 :: t.networkOut;
      ghost var pending: map<ServerThread, seq<Incoming>> := map t: ServerThread | t in conns0 :: t.networkIn;
      // `status != Closed` is the source's `flag`; a crash leaves run() by an
      // exception, which here leaves the loop.
      var status := Reading;
      var i := 0;
      assert events[..0] == [] && clock[..0] == [];
      while status == Reading && networkIn != []
        invariant 0 <= i <= |events| && networkIn == events[i..]
        invariant Serving(board0, events, clock, i, conns0, old(networkOut), base, pending, old(server.ips), old(server.accepting))
        invariant status == RequestLoop(board0, events[..i], clock[..i]).status
        decreases |networkIn|
      {
        var e := networkIn[0];
        networkIn := networkIn[1..];
        status := ServeOne(e, clock[i], board0, events, clock, i, conns0, old(networkOut), base, pending, old(server.ips), old(server.accepting));
        i := i + 1;
      }
      Settled(board0, events, clock, i, conns0, old(networkOut), base, pending, old(server.ips), old(server.accepting));
    }

    /**
     * What the session has done after `i` reads: the shared board, this
     * connection's replies after `out0`, the broadcasts on every other
     * connection after its outbox in `base` (with its pending reads in `pending`
     * untouched), and the connection list.
     */
    ghost predicate Serving(board0: PlaceBoard, events: seq<Incoming>, clock: seq<int>, i: nat,
                            conns0: seq<ServerThread>, out0: seq<PlaceRequest>, base: map<ServerThread, seq<PlaceRequest>>,
                            pending: map<ServerThread, seq<Incoming>>,
                            ips0: set<Address>, accepting0: bool)
      reads this, server, set t | t in conns0
    {
      && |clock| == |events| && i <= |events|
      && var s := RequestLoop(board0, events[..i], clock[..i]);
      && s.read == i && server.Valid() && server.ips == ips0 && server.accepting == accepting0
      && server.board == s.board && networkOut == out0 + s.replies
      && server.connections == (if s.status == Closed then RemoveFirst(conns0, this) else conns0)
      && (s.status == Reading ==> this in server.connections)
      && (forall t :: t in conns0 && t != this ==>
                    t in base && t in pending && t.networkIn == pending[t] && t.networkOut == base[t] + Broadcasts(s.accepted))
    }

    /** The facts of Serving, once the loop has stopped or run out of reads, are about the whole fold. */
    lemma Settled(board0: PlaceBoard, events: seq<Incoming>, clock: seq<int>, i: nat,
                  conns0: seq<ServerThread>, out0: seq<PlaceRequest>, base: map<ServerThread, seq<PlaceRequest>>,
                  pending: map<ServerThread, seq<Incoming>>,
                  ips0: set<Address>, accepting0: bool)
      requires Serving(board0, events, clock, i, conns0, out0, base, pending, ips0, accepting0)
      requires i == |events| || RequestLoop(board0, events[..i], clock[..i]).status != Reading
      ensures var s := RequestLoop(board0, events, clock);
              && s.read == i && server.Valid() && server.ips == ips0 && server.accepting == accepting0
              && server.board == s.board && networkOut == out0 + s.replies
              && server.connections == (if s.status == Closed then RemoveFirst(conns0, this) else conns0)
              && (forall t :: t in conns0 && t != this ==>
                    t in base && t in pending && t.networkIn == pending[t] && t.networkOut == base[t] + Broadcasts(s.accepted))
    {
      LoopSettled(board0, events, clock, i);
    }

    /** One turn of the request loop, read `e` arriving at clock reading `now`. */
    method ServeOne(e: Incoming, now: int, ghost board0: PlaceBoard, ghost events: seq<Incoming>, ghost clock: seq<int>, ghost i: nat,
                    ghost conns0: seq<ServerThread>, ghost out0: seq<PlaceRequest>, ghost base: map<ServerThread, seq<PlaceRequest>>,
                    ghost pending: map<ServerThread, seq<Incoming>>,
                    ghost ips0: set<Address>, ghost accepting0: bool)
        returns (status: Status)
      requires i < |events| && e == events[i] && |clock| == |events| && now == clock[i]
      requires Serving(board0, events, clock, i, conns0, out0, base, pending, ips0, accepting0)
      requires RequestLoop(board0, events[..i], clock[..i]).status == Reading
      modifies this, server, server.connections
      ensures Serving(board0, events, clock, i + 1, conns0, out0, base, pending, ips0, accepting0)
      ensures status == RequestLoop(board0, events[..i + 1], clock[..i + 1]).status
      ensures networkIn == old(networkIn)
    {
      ghost var p := RequestLoop(board0, events[..i], clock[..i]);
      ghost var r := Step(Fresh(p.board), e, now);
      LoopExtends(board0, events, clock, i);
      BroadcastsConcat(p.accepted, r.accepted);
      status := HandleRead(e, now);
      assert old(networkOut) == out0 + p.replies;
      AppendAssoc(out0, p.replies, r.replies);
      forall t | t in conns0 && t != this
        ensures t.networkOut == base[t] + Broadcasts(p.accepted + r.accepted)
      {
        AppendAssoc(base[t], Broadcasts(p.accepted), Broadcasts(r.accepted));
      }
    }

    /**
     * The body of the request loop for one read `e`, `now` being the clock
     * reading: a CHANGE_TILE is stamped and handed to the server, with ERROR
     * "Invalid Placement" back on rejection; a SocketException removes this
     * connection; other reads and other failures change nothing.
     */
    method HandleRead(e: Incoming, now: int) returns (status: Status)
      requires server.Valid() && this in server.connections
      modifies this, server, server.connections
      ensures server.Valid()
      ensures server.ips == old(server.ips) && server.accepting == old(server.accepting)
      ensures networkIn == old(networkIn)
      ensures var r := Step(Fresh(old(server.board)), e, now);
              && status == r.status
              && server.board == r.board
              && networkOut == old(networkOut) + r.replies
              && (forall t :: t in old(server.connections) && t != this ==>
                    t.networkIn == old(t.networkIn) && t.networkOut == old(t.networkOut) + Broadcasts(r.accepted))
              && server.connections == (if r.status == Closed then RemoveFirst(old(server.connections), this) else old(server.connections))
              && (r.status == Reading ==> this in server.connections)
    {
      match e
      case SocketFailure =>
        server.RemoveUser(this);
        status := Closed;
      case IoFailure =>
        status := Reading;
      case UnknownClass =>
        status := Reading;
      case Arrived(request) =>
        status := Reading;
        if request.kind == ChangeTile {
          if !request.data.TileData? {
            return Crashed;
          }
          var tile := Stamp(request.data.tile, now);
          var ok := server.ChangeTile(tile);
          if !ok {
            networkOut := networkOut + [InvalidPlacement];
          } else {
            assert Broadcasts([tile]) == [TileChangedMsg(tile)] by {
              assert [tile][..0] == [];
            }
          }
        }
    }
  }
}

=== FILE: session.dfy ===
/**
 * What `ServerThread` does with the reads of its connection: the login parse of
 * the constructor and the request loop of `run`, as functions of the reads and
 * of the clock readings taken on the way.
 */
module Session {
  import opened Wrappers
  import opened Place
  import opened Protocol

  /** What the constructor makes of the first request. */
  datatype LoginParse = Named(username: Option<string>) | CastFailure

  /**
   * A LOGIN request names the user with its text payload; a LOGIN without
   * payload or a request of another kind leaves the name null; a LOGIN with a
   * payload that is not text fails the cast to String.
   */
  function ParseLogin(first: PlaceRequest): (p: LoginParse)
    ensures p.CastFailure? <==> first.kind == Login && !first.data.Text? && !first.data.NoData?
    ensures p.Named? && p.username.Some? <==> first.kind == Login && first.data.Text?
    ensures p.Named? && p.username.Some? ==> p.username.value == first.data.text
  {
    if first.kind != Login then Named(None)
    else match first.data
      case NoData => Named(None)
      case Text(s) => Named(Some(s))
      case _ => CastFailure
  }

  /**
   * Reading: the loop is still running. Closed: a SocketException removed the
   * connection and ended the loop. Crashed: a CHANGE_TILE request without a
   * tile threw a ClassCastException or NullPointerException out of `run`.
   */
  datatype Status = Reading | Closed | Crashed

  /**
   * The effect of the reads processed so far: the server board, the messages
   * this session wrote or received on its own stream, the tiles accepted (and
   * broadcast), and how many reads were consumed.
   */
  datatype SessionState = SessionState(board: PlaceBoard, replies: seq<PlaceRequest>, accepted: seq<PlaceTile>, read: nat, status: Status)

  const InvalidPlacement: PlaceRequest := PlaceRequest(Error, Text("Invalid Placement"))

  /** The tile with its timestamp overwritten by the server clock. */
  function Stamp(t: PlaceTile, now: int): (r: PlaceTile)
    ensures r.time == now
    ensures r.row == t.row && r.col == t.col && r.owner == t.owner && r.color == t.color
  {
    t.(time := now)
  }

  /**
   * A read that ends the request loop: a SocketException, or a CHANGE_TILE
   * whose payload is not a tile. Every other read, failed or not, keeps it going.
   */
  predicate Ends(e: Incoming) {
    e.SocketFailure? || (e.Arrived? && e.request.kind == ChangeTile && !e.request.data.TileData?)
  }

  /** One iteration of the request loop, `now` being the clock reading it takes. */
  function Step(s: SessionState, e: Incoming, now: int): (r: SessionState)
    ensures s.status != Reading ==> r == s
    ensures s.status == Reading ==> r.read == s.read + 1
    ensures s.status == Reading ==> (r.status == Closed <==> e.SocketFailure?)
    ensures s.status == Reading ==> (r.status == Reading <==> !Ends(e))
    ensures r.board.dim == s.board.dim
    ensures || (r.accepted == s.accepted && r.board == s.board)
            || (&& |r.accepted| == |s.accepted| + 1 && r.accepted[..|s.accepted|] == s.accepted
                && IsValid(s.board, r.accepted[|s.accepted|]) && r.board == SetTile(s.board, r.accepted[|s.accepted|]))
  {
    if s.status != Reading then s
    else
      var s := s.(read := s.read + 1);
      match e
      case SocketFailure => s.(status := Closed)
      case IoFailure => s
      case UnknownClass => s
      case Arrived(req) =>
        if req.kind != ChangeTile then s
        else if !req.data.TileData? then s.(status := Crashed)
        else
          var t := Stamp(req.data.tile, now);
          if IsValid(s.board, t) then
            s.(board := SetTile(s.board, t), accepted := s.accepted + [t], replies := s.replies + [TileChangedMsg(t)])
          else
            s.(replies := s.replies + [InvalidPlacement])
  }

  /** The state before any request is read, on board b. */
  function Fresh(b: PlaceBoard): SessionState {
    SessionState(b, [], [], 0, Reading)
  }

  /** A running step on any state is the step on a fresh state, appended. */
  lemma StepCompose(s: SessionState, e: Incoming, now: int)
    requires s.status == Reading
    ensures var r := Step(Fresh(s.board), e, now);
            Step(s, e, now) == SessionState(r.board, s.replies + r.replies, s.accepted + r.accepted, s.read + 1, r.status)
  {
  }

  /** The request loop over a sequence of reads, one clock reading per read. */
  function RequestLoop(b: PlaceBoard, events: seq<Incoming>, clock: seq<int>): (s: SessionState)
    requires |clock| == |events|
    ensures s.read <= |events|
    ensures s.status == Reading ==> s.read == |events|
    ensures s.board.dim == b.dim && AllInRange(b.dim, s.accepted)
    ensures s.board == ApplyAll(b, s.accepted)
    decreases |events|
  {
    if events == [] then SessionState(b, [], [], 0, Reading)
    else
      var n := |events| - 1;
      Step(RequestLoop(b, events[..n], clock[..n]), events[n], clock[n])
  }

  /** Reading one more event extends the loop by a step from a fresh state. */
  lemma LoopExtends(b: PlaceBoard, events: seq<Incoming>, clock: seq<int>, i: nat)
    requires |clock| == |events| && i < |events| && RequestLoop(b, events[..i], clock[..i]).status == Reading
    ensures var p := RequestLoop(b, events[..i], clock[..i]);
            var r := Step(Fresh(p.board), events[i], clock[i]);
            RequestLoop(b, events[..i + 1], clock[..i + 1])
              == SessionState(r.board, p.replies + r.replies, p.accepted + r.accepted, p.read + 1, r.status)
  {
    assert events[..i + 1][..i] == events[..i] && clock[..i + 1][..i] == clock[..i];
    StepCompose(RequestLoop(b, events[..i], clock[..i]), events[i], clock[i]);
  }

  /** A stopped loop ignores the next read. */
  lemma StopsOneMore(b: PlaceBoard, events: seq<Incoming>, clock: seq<int>, i: nat)
    requires |clock| == |events| && i < |events|
    requires RequestLoop(b, events[..i], clock[..i]).status != Reading
    ensures RequestLoop(b, events[..i + 1], clock[..i + 1]) == RequestLoop(b, events[..i], clock[..i])
  {
    assert events[..i + 1][..i] == events[..i] && clock[..i + 1][..i] == clock[..i];
  }

  /** Once the loop has stopped, later reads change nothing. */
  lemma {:induction false} LoopStops(b: PlaceBoard, events: seq<Incoming>, clock: seq<int>, i: nat)
    requires |clock| == |events| && i <= |events|
    requires RequestLoop(b, events[..i], clock[..i]).status != Reading
    ensures RequestLoop(b, events, clock) == RequestLoop(b, events[..i], clock[..i])
    decreases |events| - i
  {
    if i < |events| {
      StopsOneMore(b, events, clock, i);
      LoopStops(b, events, clock, i + 1);
    } else {
      assert events[..i] == events && clock[..i] == clock;
    }
  }


  /** Once the loop has stopped or run out of reads, the rest of the reads change nothing. */
  lemma LoopSettled(b: PlaceBoard, events: seq<Incoming>, clock: seq<int>, i: nat)
    requires |clock| == |events| && i <= |events|
    requires i == |events| || RequestLoop(b, events[..i], clock[..i]).status != Reading
    ensures RequestLoop(b, events, clock) == RequestLoop(b, events[..i], clock[..i])
  {
    if i == |events| {
      assert events[..i] == events && clock[..i] == clock;
    } else {
      LoopStops(b, events, clock, i);
    }
  }

  /** The position of the first read that ends the loop, or the number of reads when none does. */
  function FirstEnd(events: seq<Incoming>): (k: nat)
    ensures k <= |events|
    ensures forall j :: 0 <= j < k ==> !Ends(events[j])
    ensures k < |events| ==> Ends(events[k])
    decreases |events|
  {
    if events == [] || Ends(events[0]) then 0 else 1 + FirstEnd(events[1..])
  }

  /** The loop keeps running exactly while no read ends it. */
  lemma {:induction false} LoopRunsIff(b: PlaceBoard, events: seq<Incoming>, clock: seq<int>)
    requires |clock| == |events|
    ensures RequestLoop(b, events, clock).status == Reading <==> forall k :: 0 <= k < |events| ==> !Ends(events[k])
    decreases |events|
  {
    if events != [] {
      var n := |events| - 1;
      LoopRunsIff(b, events[..n], clock[..n]);
      assert forall k :: 0 <= k < n ==> events[..n][k] == events[k];
      assert RequestLoop(b, events, clock) == Step(RequestLoop(b, events[..n], clock[..n]), events[n], clock[n]);
    }
  }

  /**
   * The loop ends at the first read that ends it, having consumed exactly the
   * reads up to that one: closed by a SocketException, crashed by a CHANGE_TILE
   * without a tile. With no such read it is still running.
   */
  lemma LoopEndsAtFirst(b: PlaceBoard, events: seq<Incoming>, clock: seq<int>)
    requires |clock| == |events|
    ensures var s := RequestLoop(b, events, clock);
            var k := FirstEnd(events);
            && (k == |events| ==> s.status == Reading)
            && (k < |events| ==> && s.read == k + 1
                                 && (s.status == Closed <==> events[k].SocketFailure?)
                                 && (s.status == Crashed <==> !events[k].SocketFailure?))
  {
    var k := FirstEnd(events);
    if k == |events| {
      LoopRunsIff(b, events, clock);
    } else {
      LoopEndsAt(b, events, clock, k);
    }
  }

  /** When the k-th read is the first that ends the loop, the loop is its step from the still-running prefix. */
  lemma LoopEndsAt(b: PlaceBoard, events: seq<Incoming>, clock: seq<int>, k: nat)
    requires |clock| == |events| && k < |events| && Ends(events[k])
    requires forall j :: 0 <= j < k ==> !Ends(events[j])
    ensures var p := RequestLoop(b, events[..k], clock[..k]);
            p.status == Reading && p.read == k && RequestLoop(b, events, clock) == Step(p, events[k], clock[k])
  {
    PrefixRuns(b, events, clock, k);
    LoopUnfold(b, events, clock, k);
    LoopStops(b, events, clock, k + 1);
  }

  /** A prefix none of whose reads ends the loop leaves it running. */
  lemma PrefixRuns(b: PlaceBoard, events: seq<Incoming>, clock: seq<int>, k: nat)
    requires |clock| == |events| && k <= |events|
    requires forall j :: 0 <= j < k ==> !Ends(events[j])
    ensures RequestLoop(b, events[..k], clock[..k]).status == Reading
  {
    assert forall j :: 0 <= j < k ==> events[..k][j] == events[j];
    LoopRunsIff(b, events[..k], clock[..k]);
  }

  /** Reading one more event is one step of the loop. */
  lemma LoopUnfold(b: PlaceBoard, events: seq<Incoming>, clock: seq<int>, i: nat)
    requires |clock| == |events| && i < |events|
    ensures RequestLoop(b, events[..i + 1], clock[..i + 1]) == Step(RequestLoop(b, events[..i], clock[..i]), events[i], clock[i])
  {
    assert events[..i + 1][..i] == events[..i] && clock[..i + 1][..i] == clock[..i];
  }

  /** The loop closes the connection exactly when a SocketException arrives before any other read that ends it. */
  lemma LoopClosedIff(b: PlaceBoard, events: seq<Incoming>, clock: seq<int>)
    requires |clock| == |events|
    ensures RequestLoop(b, events, clock).status == Closed <==>
            exists k :: 0 <= k < |events| && events[k].SocketFailure? && forall j :: 0 <= j < k ==> !Ends(events[j])
  {
    LoopEndsAtFirst(b, events, clock);
    var f := FirstEnd(events);
    forall k | 0 <= k < |events| && events[k].SocketFailure? && (forall j :: 0 <= j < k ==> !Ends(events[j]))
      ensures k == f
    {
      assert Ends(events[k]);
    }
  }

  /** The stamped tiles of the CHANGE_TILE requests among the reads, in order. */
  function Requested(events: seq<Incoming>, clock: seq<int>): seq<PlaceTile>
    requires |clock| == |events|
    decreases |events|
  {
    if events == [] then []
    else
      var n := |events| - 1;
      var e := events[n];
      if e.Arrived? && e.request.kind == ChangeTile && e.request.data.TileData?
      then Requested(events[..n], clock[..n]) + [Stamp(e.request.data.tile, clock[n])]
      else Requested(events[..n], clock[..n])
  }

  /** The reply a CHANGE_TILE gets on the requester's own stream: its echo, or the error. */
  function ReplyFor(dim: nat, t: PlaceTile): PlaceRequest {
    if InRange(dim, t) then TileChangedMsg(t) else InvalidPlacement
  }

  function Replies(dim: nat, ts: seq<PlaceTile>): seq<PlaceRequest>
    decreases |ts|
  {
    if ts == [] then [] else Replies(dim, ts[..|ts| - 1]) + [ReplyFor(dim, ts[|ts| - 1])]
  }

  /** The tiles of ts that lie on a dim x dim board, in order. */
  function InRangeTiles(dim: nat, ts: seq<PlaceTile>): seq<PlaceTile>
    decreases |ts|
  {
    if ts == [] then []
    else if InRange(dim, ts[|ts| - 1]) then InRangeTiles(dim, ts[..|ts| - 1]) + [ts[|ts| - 1]]
    else InRangeTiles(dim, ts[..|ts| - 1])
  }

  /** One iteration that keeps the loop running, seen through Requested, Replies and InRangeTiles. */
  lemma StepAnswers(p: SessionState, e: Incoming, now: int)
    requires p.status == Reading && Step(p, e, now).status == Reading
    ensures var r := Step(p, e, now);
            && r.read == p.read + 1
            && if e.Arrived? && e.request.kind == ChangeTile && e.request.data.TileData? then
                 var t := Stamp(e.request.data.tile, now);
                 && r.replies == p.replies + [ReplyFor(p.board.dim, t)]
                 && r.accepted == p.accepted + (if InRange(p.board.dim, t) then [t] else [])
               else r.replies == p.replies && r.accepted == p.accepted
  {
  }

  /**
   * While the loop runs, every CHANGE_TILE request gets exactly one reply on the
   * requester's stream, in request order (its echo when the tile is in range,
   * "Invalid Placement" otherwise), exactly the in-range requests are accepted,
   * and every other read leaves no trace.
   */
  lemma {:induction false} LoopAnswersEachRequest(b: PlaceBoard, events: seq<Incoming>, clock: seq<int>)
    requires |clock| == |events| && RequestLoop(b, events, clock).status == Reading
    ensures var s := RequestLoop(b, events, clock);
            && s.read == |events|
            && s.replies == Replies(b.dim, Requested(events, clock))
            && s.accepted == InRangeTiles(b.dim, Requested(events, clock))
    decreases |events|
  {
    if events != [] {
      var n := |events| - 1;
      var p := RequestLoop(b, events[..n], clock[..n]);
      assert RequestLoop(b, events, clock) == Step(p, events[n], clock[n]);
      assert p.status == Reading;
      LoopAnswersEachRequest(b, events[..n], clock[..n]);
      StepAnswers(p, events[n], clock[n]);
      var rs := Requested(events[..n], clock[..n]);
      var e := events[n];
      if e.Arrived? && e.request.kind == ChangeTile && e.request.data.TileData? {
        var t := Stamp(e.request.data.tile, clock[n]);
        assert Requested(events, clock) == rs + [t];
        assert (rs + [t])[..|rs|] == rs;
        assert Replies(b.dim, rs + [t]) == Replies(b.dim, rs) + [ReplyFor(b.dim, t)];
        assert InRangeTiles(b.dim, rs + [t]) == InRangeTiles(b.dim, rs) + (if InRange(b.dim, t) then [t] else []);
      } else {
        assert Requested(events, clock) == rs;
      }
    }
  }

  /** What one iteration adds to the accepted tiles, in any state. */
  lemma StepAccepted(p: SessionState, e: Incoming, now: int)
    ensures Step(p, e, now).accepted
            == p.accepted + (if && p.status == Reading && e.Arrived? && e.request.kind == ChangeTile && e.request.data.TileData?
                                && InRange(p.board.dim, Stamp(e.request.data.tile, now))
                             then [Stamp(e.request.data.tile, now)] else [])
  {
  }

  /** Every accepted tile is one of the stamped CHANGE_TILE tiles read. */
  lemma {:induction false} AcceptedWereRequested(b: PlaceBoard, events: seq<Incoming>, clock: seq<int>)
    requires |clock| == |events|
    ensures forall t :: t in RequestLoop(b, events, clock).accepted ==> t in Requested(events, clock)
    decreases |events|
  {
    if events != [] {
      var n := |events| - 1;
      var p := RequestLoop(b, events[..n], clock[..n]);
      assert RequestLoop(b, events, clock) == Step(p, events[n], clock[n]);
      StepAccepted(p, events[n], clock[n]);
      AcceptedWereRequested(b, events[..n], clock[..n]);
    }
  }

  /**
   * Every requested tile is the tile of some CHANGE_TILE read with the
   * server's clock reading of that read in place of the client's timestamp.
   */
  lemma {:induction false} RequestedCarryServerTime(events: seq<Incoming>, clock: seq<int>, t: PlaceTile)
    requires |clock| == |events| && t in Requested(events, clock)
    ensures exists j :: 0 <= j < |events| && events[j].Arrived? && events[j].request.kind == ChangeTile
              && events[j].request.data.TileData? && t == Stamp(events[j].request.data.tile, clock[j])
    decreases |events|
  {
    var n := |events| - 1;
    var e := events[n];
    if e.Arrived? && e.request.kind == ChangeTile && e.request.data.TileData? && t == Stamp(e.request.data.tile, clock[n]) {
    } else {
      RequestedCarryServerTime(events[..n], clock[..n], t);
      var j :| 0 <= j < n && events[..n][j].Arrived? && events[..n][j].request.kind == ChangeTile
                && events[..n][j].request.data.TileData? && t == Stamp(events[..n][j].request.data.tile, clock[..n][j]);
      assert events[j] == events[..n][j] && clock[j] == clock[..n][j];
    }
  }


}

=== FILE: wrappers.dfy ===
/** The Option datatype, standing for a Java reference that may be null, and a sequence helper. */
module Wrappers {

  datatype Option<+T> = None | Some(value: T)

  /** Regrouping a concatenation, as a fact to call where the solver would otherwise search for it. */
  lemma AppendAssoc<T>(a: seq<T>, b: seq<T>, c: seq<T>)
    ensures a + (b + c) == a + b + c
  {
  }
}
